=== FILE: README.md ===
# ZH06/ZH07 laser dust sensor protocol, in Dafny

This project models the protocol layer of a Go driver for the Winsen ZH06/ZH07
laser dust sensor. The sensor reports PM1.0, PM2.5 and PM10 concentrations over
a serial line in one of two modes:

- **initiative upload** (streaming): the sensor sends 32-byte frames on its own.
  Each read resynchronises on the `42 4D` marker, checks the length field (28),
  and decodes three big-endian fields. It never looks at the frame's 16-bit
  checksum, which is a plain non-wrapping sum.
- **question & answer**: the host sends the 9-byte query and reads one 9-byte
  reply. The reply is accepted only when its trailer is the 8-bit
  two's-complement checksum of bytes 1..7.

The model has four modules, one per source file:

- `Common` (`common.dfy`, `common.go`): bytes, the `Reading` record, errors,
  the checksum, the big-endian field codec, the `0xHH ` hex dump, the five
  command frames, and the transport.
- `InitiativeUpload` (`initiative.dfy`, `zh07i.go`): the streaming parser. It is
  a pure function from the bytes waiting on the line to the outcome, the frame
  buffer afterwards, and the bytes left unread.
- `QuestionAnswer` (`question_answer.dfy`, `zh07q.go`): the request/response
  driver. It is a function of the port: it records the query and reads the
  reply from the waiting bytes.
- `Facade` (`facade.dfy`, `zh07.go`): the legacy mode facade, plus that file's
  own copies of the checksum, field and dump helpers.

The transport is a `Port` value with five parts:

- the list of frames the writer accepted;
- the fault, if any, that a write raises;
- the fault, if any, that a flush raises;
- the fault, if any, that the question & answer exchange raises when it
  reads its reply (a serial-line error, or the error a replaced
  `writeAndRead` hook returns);
- the bytes waiting to be read.

The source's `write` helper returns a write fault, and otherwise returns the
flush's status. `setMode` returns a write fault but drops a flush fault.
`writeAndRead` drops both, then takes its reply with one plain read of up to
9 waiting bytes into a zero-filled buffer. Both modes read from the waiting
bytes. A question & answer read passes the end-of-input error of an empty
line on unchanged; the streaming parser reports an empty line as a
communication error instead.

## Model

| member | source | states |
|---|---|---|
| Common.WrappingSum | common.go:120-125 | the 8-bit accumulator, wrapping after every byte, ends at the exact sum of the bytes modulo 256 |
| Common.Checksum | common.go:120-126 | the checksum is (256 - (sum of bytes 1..len-2) mod 256) mod 256, a byte; added to that sum it gives 0 modulo 256 |
| Common.ChecksumIgnoresEnds | common.go:122 | changing the first byte or the last byte of a frame never changes its checksum |
| Common.ValidTrailerIffSumVanishes | common.go:120-126 | a frame's last byte equals its checksum exactly when all bytes after the first sum to 0 modulo 256 |
| Common.SameResidue | common.go:120-126 | once one byte brings a sum to 0 modulo 256, no other byte does, so the checksum is the only trailer that passes |
| Common.Seal | common.go:120-126 | putting the computed checksum in the last byte keeps every other byte and always yields a frame that passes the check |
| Common.SealedIffValid | common.go:120-126 | a frame passes the check exactly when sealing leaves it unchanged, so the passing trailer is unique |
| Common.ChecksumVector | common_test.go:86-91 | the checksum of FF 86 00 47 00 C7 03 0F 5A is 0x5A |
| Common.CommandsAreWellFormed | common.go:56-114 | each of the five command frames has 9 bytes, starts FF 01, and carries its own checksum in byte 8 |
| Common.SetModeCommandsAreWellFormed | common.go:56-78 | the two set-mode frames, FF 01 78 40 … 47 and FF 01 78 41 … 46, carry their own checksum in byte 8 |
| Common.QueryIsWellFormed | common.go:80-90 | the query frame FF 01 86 00 … 79 carries its own checksum in byte 8 |
| Common.DormantCommandsAreWellFormed | common.go:92-114 | the dormant enter and quit frames, FF 01 A7 01 … 57 and FF 01 A7 00 … 58, carry their own checksum in byte 8 |
| Common.ByteToInt | common.go:129-131 | the value is below 65536, its high byte is data[0] and its low byte is data[1] |
| Common.SplitThenJoin | common.go:129-131 | decoding the big-endian split of any v below 65536 gives back v |
| Common.JoinThenSplit | common.go:129-131 | decoding reads only the first two bytes, and splitting the decoded value gives those two bytes back |
| Common.SumBound | zh07i.go:51-57 | a sum of n bytes is at most 255 n, so the 30-byte streaming checksum never exceeds 7650 |
| Common.HexByte | common.go:138 | each byte prints as five characters: "0x", the high and low lower-case hex digits, a space |
| Common.ToHex | common.go:134-142 | the dump of n bytes has 5 n characters |
| Common.ToHexAt | common.go:137-139 | characters 5i..5i+4 of the dump are exactly byte i's five-character form |
| Common.ToHexAppend | common.go:137-139 | the dump of a concatenation is the concatenation of the dumps |
| Common.HexRoundTrip | common.go:134-142 | reading the dump back gives the original bytes, so the dump loses nothing |
| Common.ToHexVector | common_test.go:94-98 | 00 01 02 0a ff dumps to "0x00 0x01 0x02 0x0a 0xff " |
| Common.Write | common.go:158-164 | a failing write is returned and records nothing; otherwise the frame is recorded and the flush status is returned. The waiting bytes and all three faults never change |
| Common.ReadSome | common.go:148-151 | a plain read fails only when no byte is waiting; it takes min(n, waiting) bytes and leaves the rest of the buffer zero |
| Common.ReadFull | zh07i.go:97 | a full read fails exactly when fewer than n bytes wait; otherwise it splits off exactly n bytes |
| InitiativeUpload.NewZH07i | zh07i.go:22-36 | a fresh streaming sensor holds a 32-byte buffer of zeros |
| InitiativeUpload.Init | zh07i.go:39-46 | Init writes exactly the set-initiative-upload command; a write or flush fault is returned unchanged; a failed write records nothing |
| InitiativeUpload.CalculateChecksum | zh07i.go:51-57 | the loop returns the exact, never wrapping, sum of buffer bytes 0..29, which lies in 0..7650 |
| InitiativeUpload.IsReadingValid | zh07i.go:60-62 | valid exactly when byte 30 is the high byte and byte 31 the low byte of the sum of bytes 0..29, i.e. that sum equals the big-endian trailer |
| InitiativeUpload.GetChecksum | zh07i.go:113-116 | the trailer value has byte 30 as its high byte and byte 31 as its low byte, and equals the sum of bytes 0..29 exactly when the frame checksum is valid |
| InitiativeUpload.Read | zh07i.go:65-111 | consumes a prefix of the input. Error (CommError, all input consumed) exactly for: empty input, a lone 0x42, or a valid header with under 32 bytes. Frame exactly when the input starts 42 4D 00 1C and has 32 bytes; then the buffer is those 32 bytes and PM1/PM2.5/PM10 come from bytes 10-11/12-13/14-15. Otherwise no reading: 1 byte consumed after a wrong start byte, else 4 bytes or all that was there, and the buffer is unchanged |
| InitiativeUpload.ShortHeaderNeverFrames | zh07i.go:84-94 | after a 0x42, a header read that gets only one or two bytes is zero-padded, so its length is never 28: no reading and no error |
| InitiativeUpload.HeaderGivesReading | zh07i.go:96-110 | input that starts 42 4D 00 1C and holds a whole frame always yields the reading decoded from that frame |
| InitiativeUpload.NoHeaderGivesNothing | zh07i.go:73-94 | input that holds a whole frame but does not start 42 4D 00 1C yields no reading and no error |
| InitiativeUpload.LongInputOutcome | zh07i.go:65-110 | with at least 32 bytes waiting, the outcome is the reading of bytes 0..29 when the header is there, and no reading otherwise |
| InitiativeUpload.FrameReadingBytes | zh07i.go:104-108 | PM1, PM2.5 and PM10 are the big-endian pairs at offsets 10, 12 and 14 of the frame |
| InitiativeUpload.ChecksumNotConsulted | zh07i.go:96-110 | two inputs that agree on their first 30 bytes give the same outcome, whatever their trailers hold |
| InitiativeUpload.OutcomeIgnoresBuffer | zh07i.go:65-110 | the outcome and the unread bytes do not depend on the buffer's previous contents |
| InitiativeUpload.StrayStartByteLosesFrame | zh07i.go:73-94 | an extra 0x42 in front of a complete frame gives no reading, keeps the sensor, and consumes the frame's own 42 4D 00, so the next read cannot find that frame's header |
| InitiativeUpload.Drain | zh07i.go:65-111 | polling n times yields exactly n outcomes |
| InitiativeUpload.SkipsNonStartBytes | zh07i.go:74-79 | waiting bytes none of which is 0x42 are skipped one per read, each read yielding no reading and keeping the sensor, leaving exactly what follows them |
| InitiativeUpload.StrayStartThenSkip | zh07i.go:73-94 | after a stray 0x42 swallows a frame's 42 4D 00, the following bytes without 0x42 are skipped one per read, every read yielding no reading |
| InitiativeUpload.LostFrameRecovers | zh07i.go:73-110 | when bytes 3..31 of the swallowed frame hold no 0x42, 30 reads yield nothing and leave exactly the next frame, which the next read decodes |
| InitiativeUpload.FrameLossCascades | zh07i.go:73-94 | when the swallowed frame ends in 0x42 and holds no other 0x42 after its header, 29 reads leave that 0x42 in front of the next frame, and the next read swallows that frame's header too |
| InitiativeUpload.CascadeFrameIsValid | zh07i.go:51-62 | a frame with PM1.0 0x97 and trailer 01 42 has a valid checksum, ends in 0x42, and has no other 0x42 after its header |
| InitiativeUpload.ValidFrameCascades | zh07i.go:73-94 | after a stray 0x42, that checksummed frame followed by the sample frame loses both frames |
| InitiativeUpload.ReadWholeFrame | zh07i.go:96-110 | exactly one whole frame is consumed entirely and decoded from its own bytes |
| InitiativeUpload.SampleFrameDecodes | zh07i_test.go:145-152 | the sample frame decodes to PM1 0x54, PM2.5 0x6E, PM10 0x7C |
| InitiativeUpload.BadChecksumSampleDecodes | zh07i_test.go:35-53 | the sample with trailer 03 28 decodes to the same reading |
| InitiativeUpload.SampleChecksums | zh07i_test.go:99-210 | the sample's bytes 0..29 sum to 0x0327: trailer 03 27 is valid and 03 28 is not, and getChecksum of the sample frame is 0x0327 |
| InitiativeUpload.ParserVectors | zh07i_test.go:153-175 | 00, 42 00 and 42 4D 00 00 give no reading and leave nothing unread |
| InitiativeUpload.ParserErrorVectors | zh07i_test.go:177-183 | 42 4D 00 1C 00 (a body cut short) and the empty input give CommError |
| QuestionAnswer.Init | zh07q.go:39-46 | Init writes exactly the set-Q&A-mode command; a write or flush fault is returned unchanged; a failed write records nothing |
| QuestionAnswer.NewZH07q | zh07q.go:21-36 | a fresh Q&A sensor holds no reply |
| QuestionAnswer.CalculateChecksum | zh07q.go:49-51 | the computed value cancels the sum of the stored reply's inner bytes modulo 256 |
| QuestionAnswer.IsReadingValid | zh07q.go:54-56 | a 9-byte reply is valid exactly when bytes 1..8 sum to 0 modulo 256 |
| QuestionAnswer.GetChecksum | zh07q.go:79-81 | for a 9-byte reply it is the trailer byte, and it equals the computed checksum exactly when the trailer is valid |
| QuestionAnswer.Padded | common.go:148-150 | the reply buffer is always 9 bytes: the first 9 waiting bytes, or all of them followed by zeros |
| QuestionAnswer.Read | zh07q.go:59-76 | the query command is recorded unless the write fails, and the write's status is dropped. A read fault is returned unchanged, clears the stored reply and consumes nothing. Without one, up to 9 waiting bytes are consumed, and nothing waiting gives exactly the end-of-input error and clears the stored reply. Otherwise the stored reply is the zero-padded 9-byte buffer; a reading comes back exactly when its trailer is its checksum, else ChecksumMismatch(byte 8, computed). PM2.5, PM10 and PM1 come from bytes 2-3, 4-5 and 6-7. "No reading" never occurs |
| QuestionAnswer.StartByteIgnored | zh07q.go:59-76 | replacing the first waiting byte of any non-empty reply, whole or zero-padded, never changes the outcome, and without a read fault it does not change the port afterwards either |
| QuestionAnswer.SampleReplyChecksum | zh07q_test.go:71-76 | the checksum of the sample reply, with either trailer, is 0xFA |
| QuestionAnswer.SampleReplies | zh07q_test.go:110-176 | trailer FA gives PM2.5 0x85, PM10 0x96, PM1 0x65. Trailer FB gives ChecksumMismatch(0xFB, 0xFA). An empty line gives the end-of-input error. An arbitrary fault of the exchange is returned as is, with no stored reply. getChecksum of the sample reply is 0xFA |
| QuestionAnswer.ShortReplyIsPadded | common.go:148-150 | the sample reply cut to 8 bytes is padded with a zero trailer and rejected as ChecksumMismatch(0x00, 0xFA) |
| Facade.ModeName | zh07.go:12-21 | a mode's name is non-empty exactly for the two defined modes: "InitiativeUpload" for 0 and "QuestionAndAnswer" for 1 |
| Facade.ModeFromString | zh07.go:129-140 | exactly "initiative" and "qa" parse, to the initiative and Q&A modes; any other string gives UnknownMode carrying it |
| Facade.NamedModesAreParsable | zh07.go:129-140 | every mode with a name is the parse of some accepted spelling |
| Facade.SetModeFrame | zh07.go:70-76 | the patched frame is the set-Q&A-mode command for Q&A mode and the set-initiative-upload command for every other value, and carries a valid checksum |
| Facade.SetMode | zh07.go:70-88 | the status is the write's own fault, and a flush fault is dropped. A successful write records exactly the set-mode frame; a failed one records nothing |
| Facade.NewZH07 | zh07.go:46-64 | construction fails exactly when the set-mode write fails, with that error and no frame recorded. Otherwise the only frame recorded is the set-mode frame (the Q&A command for Q&A mode). The instance keeps the mode and uses the streaming implementation exactly for mode 0 and the Q&A one exactly for mode 1 |
| Facade.Read | zh07.go:66-68 | the result is the active implementation's result, unchanged. A streaming read consumes waiting bytes and writes nothing. A Q&A read returns a read fault unchanged and consumes nothing; otherwise it consumes up to 9 waiting bytes. It returns a reading only when there was no read fault, some byte was waiting and the padded reply has a valid trailer |
| Facade.ModesDifferOnBadTrailer | zh07.go:46-68 | after construction, a Q&A sensor rejects the bad-trailer sample reply with ChecksumMismatch(0xFB, 0xFA); a streaming sensor still decodes the bad-trailer sample frame |
| Facade.CalculateChecksum | zh07.go:106-112 | this file's 8-bit checksum loop returns the shared checksum for every frame of two or more bytes |
| Facade.ByteToInt | zh07.go:115-117 | this file's decoder equals the shared big-endian decoder on every input |
| Facade.ToHex | zh07.go:119-127 | this file's dump loop builds exactly the shared dump |

## Behaviour worth knowing

- After the 0x42 start byte, the streaming parser reads the next three bytes with a
  single plain read, not an exact one. With one or two bytes left, the missing
  bytes stay zero and the result is "no reading", not an error.
- A "no reading" outcome can consume up to four bytes, including the start of
  a real frame. `InitiativeUpload.StrayStartByteLosesFrame` shows a stray
  0x42 in front of a frame losing that frame. The parser then skips the lost
  frame's remaining bytes one per read, as long as none of them is 0x42. `InitiativeUpload.LostFrameRecovers`
  shows the next frame is read after 30 attempts when those bytes hold no
  0x42. `InitiativeUpload.FrameLossCascades` shows that a lost frame ending in
  0x42, with no other 0x42 after its header, loses the next frame as well.
  `InitiativeUpload.ValidFrameCascades` gives such a frame with a valid
  checksum. So a sensor whose frames keep ending in 0x42 and hold no other
  0x42 after the header keeps losing frames.
- A question & answer reply shorter than 9 bytes is zero-padded, so its
  trailer reads as 0x00. `QuestionAnswer.ShortReplyIsPadded` shows one.
- A streaming read returns its reading without checking the trailer. Only
  `IsReadingValid` checks it. Question & answer reads do reject a bad trailer.
- The facade gives its streaming implementation an empty buffer. `NewZH07i`
  gives a 32-byte zero buffer instead.
- The facade builds a sensor even for a mode value that is neither 0 nor 1.
  Such a sensor sends the set-initiative-upload frame and gets no
  implementation.

## Left out

- Settle delays (`time.Sleep`) and `log.Printf` calls are no-ops here.
- `SendCommand` (zh07.go:90-104) is not modelled. Nothing in the core calls it.
- Buffering and flushing are reduced to the port's write and flush faults.
- The replaceable `writeAndRead` hook is modelled only through its outcome: a
  replaced hook that fails is the port's read fault. A hook that returns
  exactly nine bytes and no error acts like those nine bytes waiting on the
  port. Other lengths are not modelled: fewer than nine make the source's
  trailer lookup go out of range, more than nine change which bytes its
  checksum covers, and none at all panics in the checksum loop.
- InitiativeUpload.Read: takes only the waiting bytes and does not consult
  the port's read fault. The source wraps any read error as a communication
  error. The model produces that error only for end of input, because the
  repeated-read lemmas work on the byte stream alone.
- Both modes' reads assume that every waiting byte is already buffered, as
  with the in-memory readers of the unit tests. Bytes that arrive in several
  pieces from a real serial port are not modelled.
- The command-line example program, signal handling, the polling ticker, and
  opening the serial port are not modelled. They are process and I/O plumbing.
- Goroutine test helpers and concurrency are not modelled. The driver is
  single-threaded by design.
- Exact error-message texts are not modelled. Errors are datatype constructors.
- `zh07.go` declares its own `Reading` and `SensorInterface`, which clash with
  the shared ones. The model has one `Reading` and dispatches through a
  datatype of implementations.
- Facade.Read: requires an implementation to be set. For any other mode value
  the source calls a method on a nil interface.
- QuestionAnswer.CalculateChecksum: requires at least 2 stored bytes.
  `QuestionAnswer.IsReadingValid` and `QuestionAnswer.GetChecksum` require 9.
  Before the first reply, and after a failed exchange, the stored reply is nil
  and the source's slice or index goes out of range.
- InitiativeUpload.CalculateChecksum: requires at least 30 buffer bytes.
  `InitiativeUpload.IsReadingValid` and `InitiativeUpload.GetChecksum` require
  32. Shorter buffers, such as the facade's empty one before its first frame,
  make the source slice out of range.
- Go's `int` is 64 bits wide. Every byte, sum and decoded field here stays
  below 65536, so the model uses unbounded integers and no wrap-around
  arises. The mode value and a transport error's code are unbounded here;
  the source does no arithmetic on either.

=== FILE: common.dfy ===
/**
 * The protocol vocabulary shared by both communication modes of the Winsen
 * ZH06/ZH07 laser dust sensor driver: bytes and readings, the question & answer
 * checksum, the big-endian field codec, the debug hex dump, the five fixed
 * command frames, and the abstract transport the modes write to.
 */
module Common {

  /** An unsigned 8-bit value as it travels on the serial line. */
  type byte = b: int | 0 <= b < 256

  /** One particulate-matter reading, in micrograms per cubic metre. */
  datatype Reading = Reading(pm1: nat, pm25: nat, pm10: nat)

  /** The failures the driver reports; message texts are not modelled. */
  datatype Error =
    | CommError                                      // the streaming parser's ErrSensorCommunication
    | EndOfInput                                     // io.EOF: a read found nothing waiting
    | ChecksumMismatch(received: int, computed: int) // a Q&A reply whose trailer is wrong
    | TransportError(code: int)                      // an error raised by the transport, passed on as is
    | UnknownMode(name: string)                      // a mode name that is neither "initiative" nor "qa"

  /** Go's bare `error` return: nil or an error. */
  datatype Outcome = Pass | Fail(error: Error)

  /** Go's `(value, error)` pair where exactly one side is meaningful. */
  datatype Result<T> = Ok(value: T) | Err(error: Error)

  /** What one read attempt of either mode hands back: `(nil, nil)`, `(&r, nil)` or `(nil, e)`. */
  datatype ReadResult = NoReading | Got(reading: Reading) | Failed(error: Error)

  /**
   * The transport, seen from the driver: the frames it accepted so far, the
   * fault (if any) that its next write, flush and reply read raise, and the
   * bytes still waiting to be read from the sensor.
   */
  datatype Port = Port(
    written: seq<seq<byte>>,
    writeFault: Outcome,
    flushFault: Outcome,
    readFault: Outcome,
    incoming: seq<byte>)

  /** A transport step that only writes: its status and the port afterwards. */
  datatype Sent = Sent(status: Outcome, port: Port)

  /**
   * The `write` helper: a failing write is reported and nothing is recorded;
   * otherwise the frame is recorded and the flush's status is returned.
   */
  function Write(port: Port, frame: seq<byte>): (r: Sent)
    ensures port.writeFault.Fail? ==> r.status == port.writeFault && r.port == port
    ensures port.writeFault.Pass? ==> r.status == port.flushFault && r.port.written == port.written + [frame]
    ensures r.port.incoming == port.incoming && r.port.writeFault == port.writeFault && r.port.flushFault == port.flushFault
    ensures r.port.readFault == port.readFault
  {
    if port.writeFault.Fail? then Sent(port.writeFault, port)
    else Sent(port.flushFault, port.(written := port.written + [frame]))
  }

  /** The bytes a buffered read hands over, and what it leaves behind. */
  datatype Fetched = Fetched(buffer: seq<byte>, rest: seq<byte>) | Exhausted

  /**
   * A plain `Read` into a fresh zero-filled buffer of `n` bytes: it fails only
   * when nothing is waiting; otherwise it takes as many bytes as are there, up
   * to `n`, and the tail of the buffer stays zero.
   */
  function ReadSome(src: seq<byte>, n: nat): (r: Fetched)
    requires n > 0
    ensures r.Exhausted? <==> |src| == 0
    ensures r.Fetched? ==> |r.buffer| == n
    ensures r.Fetched? && |src| >= n ==> r.buffer == src[..n] && r.rest == src[n..]
    ensures r.Fetched? && |src| < n ==> r.buffer[..|src|] == src && r.rest == []
    ensures r.Fetched? && |src| < n ==> forall i :: |src| <= i < n ==> r.buffer[i] == 0
  {
    if |src| == 0 then Exhausted
    else if |src| >= n then Fetched(src[..n], src[n..])
    else Fetched(src + seq(n - |src|, _ => 0), [])
  }

  /** `io.ReadFull` of `n` bytes: anything short of `n` is a failure. */
  function ReadFull(src: seq<byte>, n: nat): (r: Fetched)
    ensures r.Exhausted? <==> |src| < n
    ensures r.Fetched? ==> src == r.buffer + r.rest && |r.buffer| == n
  {
    if |src| < n then Exhausted else Fetched(src[..n], src[n..])
  }

  // ---------------------------------------------------------------------------
  // Sums and the question & answer checksum
  // ---------------------------------------------------------------------------

  /** The exact (non-wrapping) sum of a byte sequence, accumulated front to back. */
  function Sum(s: seq<byte>): nat
  {
    if |s| == 0 then 0 else Sum(s[..|s| - 1]) + s[|s| - 1]
  }

  lemma {:induction false} SumBound(s: seq<byte>)
    ensures Sum(s) <= 255 * |s|
  {
    if |s| > 0 {
      SumBound(s[..|s| - 1]);
    }
  }

  /** Appending one byte adds exactly that byte to the sum. */
  lemma SumSnoc(s: seq<byte>, b: byte)
    ensures Sum(s + [b]) == Sum(s) + b
  {
    assert (s + [b])[..|s|] == s;
  }

  /** The sum accumulated in an 8-bit register, wrapping after every byte. */
  function WrappingSum(s: seq<byte>): (r: byte)
    ensures r == Sum(s) % 256
  {
    if |s| == 0 then 0
    else
      var w := WrappingSum(s[..|s| - 1]);
      AddModulo(Sum(s[..|s| - 1]), s[|s| - 1]);
      (w + s[|s| - 1]) % 256
  }

  /** Reducing the first addend modulo 256 before adding does not change the sum modulo 256. */
  lemma AddModulo(a: nat, b: nat)
    ensures (a % 256 + b) % 256 == (a + b) % 256
  {
    assert a == 256 * (a / 256) + a % 256;
  }

  /** Bitwise complement of one byte. */
  function Complement(t: byte): byte
  {
    255 - t
  }

  /** The bytes the question & answer checksum covers: all but the first and the last. */
  function ChecksumBody(d: seq<byte>): seq<byte>
    requires |d| >= 2
  {
    d[1..|d| - 1]
  }

  /**
   * calculateChecksum: the complement-plus-one (two's-complement negation) of the
   * wrapping sum of every byte except the first and the last.
   */
  function Checksum(d: seq<byte>): (r: byte)
    requires |d| >= 2
    ensures r == (256 - Sum(ChecksumBody(d)) % 256) % 256
    ensures (Sum(ChecksumBody(d)) + r) % 256 == 0
  {
    (Complement(WrappingSum(ChecksumBody(d))) + 1) % 256
  }

  /** The checksum never looks at the marker byte nor at the trailer slot. */
  lemma ChecksumIgnoresEnds(d: seq<byte>, first: byte, last: byte)
    requires |d| >= 2
    ensures Checksum(d[0 := first][|d| - 1 := last]) == Checksum(d)
  {
    assert ChecksumBody(d[0 := first][|d| - 1 := last]) == ChecksumBody(d);
  }

  /** A frame whose trailer byte is the checksum of the frame. */
  predicate HasValidTrailer(d: seq<byte>)
    requires |d| >= 2
  {
    Checksum(d) == d[|d| - 1]
  }

  /** The trailer is valid exactly when every byte after the marker sums to zero modulo 256. */
  lemma {:induction false} ValidTrailerIffSumVanishes(d: seq<byte>)
    requires |d| >= 2
    ensures HasValidTrailer(d) <==> Sum(d[1..]) % 256 == 0
  {
    assert d[1..] == ChecksumBody(d) + [d[|d| - 1]];
    SumSnoc(ChecksumBody(d), d[|d| - 1]);
    SameResidue(Sum(ChecksumBody(d)), Checksum(d), d[|d| - 1]);
  }

  /** Modulo 256, at most one byte brings a given sum to zero. */
  lemma SameResidue(s: nat, r: byte, t: byte)
    requires (s + r) % 256 == 0
    ensures (s + t) % 256 == 0 <==> r == t
  {
  }

  /** The same frame with its trailer replaced by the computed checksum. */
  function Seal(d: seq<byte>): (r: seq<byte>)
    requires |d| >= 2
    ensures |r| == |d| && r[..|d| - 1] == d[..|d| - 1]
    ensures HasValidTrailer(r)
  {
    ChecksumIgnoresEnds(d, d[0], Checksum(d));
    assert d[0 := d[0]] == d;
    d[|d| - 1 := Checksum(d)]
  }

  /** A frame passes the check exactly when it is its own sealed form: the valid trailer is unique. */
  lemma SealedIffValid(d: seq<byte>)
    requires |d| >= 2
    ensures HasValidTrailer(d) <==> Seal(d) == d
  {
    if Seal(d) == d {
      assert HasValidTrailer(Seal(d));
    }
  }

  /** The sum of a concatenation is the sum of the sums. */
  lemma {:induction false} SumAppend(a: seq<byte>, b: seq<byte>)
    ensures Sum(a + b) == Sum(a) + Sum(b)
  {
    if |b| == 0 {
      assert a + b == a;
    } else {
      var b' := b[..|b| - 1];
      assert (a + b)[..|a + b| - 1] == a + b';
      assert (a + b)[|a + b| - 1] == b[|b| - 1];
      SumAppend(a, b');
    }
  }

  /** A run of zero bytes adds nothing. */
  lemma {:induction false} SumOfZeros(s: seq<byte>)
    requires forall i :: 0 <= i < |s| ==> s[i] == 0
    ensures Sum(s) == 0
  {
    if |s| > 0 {
      SumOfZeros(s[..|s| - 1]);
    }
  }

  /** The worked example of the checksum: the trailer 0x5A of a sample reply. */
  lemma ChecksumVector()
    ensures Checksum([0xFF, 0x86, 0x00, 0x47, 0x00, 0xC7, 0x03, 0x0F, 0x5A]) == 0x5A
  {
    var d: seq<byte> := [0xFF, 0x86, 0x00, 0x47, 0x00, 0xC7, 0x03, 0x0F, 0x5A];
    assert ChecksumBody(d) == [0x86, 0x00, 0x47, 0x00, 0xC7, 0x03, 0x0F];
    SumOfBytes7(0x86, 0x00, 0x47, 0x00, 0xC7, 0x03, 0x0F);
  }

  /** The sum of a seven-byte sequence written out. */
  lemma SumOfBytes7(a: byte, b: byte, c: byte, d: byte, e: byte, f: byte, g: byte)
    ensures Sum([a, b, c, d, e, f, g]) == a as int + b + c + d + e + f + g
  {
    assert [a, b, c, d, e, f, g][..6] == [a, b, c, d, e, f];
    assert [a, b, c, d, e, f][..5] == [a, b, c, d, e];
    assert [a, b, c, d, e][..4] == [a, b, c, d];
    assert [a, b, c, d][..3] == [a, b, c];
    assert [a, b, c][..2] == [a, b];
    assert [a, b][..1] == [a];
    assert Sum([a]) == a;
    assert Sum([a, b]) == a as int + b;
    assert Sum([a, b, c]) == a as int + b + c;
    assert Sum([a, b, c, d]) == a as int + b + c + d;
    assert Sum([a, b, c, d, e]) == a as int + b + c + d + e;
    assert Sum([a, b, c, d, e, f]) == a as int + b + c + d + e + f;
  }

  // ---------------------------------------------------------------------------
  // Big-endian 2-byte fields
  // ---------------------------------------------------------------------------

  /** byteToInt: the first two bytes read as a big-endian 16-bit value. */
  function ByteToInt(data: seq<byte>): (r: nat)
    requires |data| >= 2
    ensures r < 65536
    ensures r / 256 == data[0] && r % 256 == data[1]
  {
    data[1] as int + (data[0] as int) * 256
  }

  /** The big-endian 2-byte encoding of a 16-bit value. */
  function Split(v: nat): (r: seq<byte>)
    requires v < 65536
    ensures |r| == 2
  {
    [v / 256, v % 256]
  }

  lemma SplitThenJoin(v: nat)
    requires v < 65536
    ensures ByteToInt(Split(v)) == v
  {
  }

  /** Decoding reads nothing beyond the first two bytes, and re-encoding gives them back. */
  lemma JoinThenSplit(data: seq<byte>)
    requires |data| >= 2
    ensures Split(ByteToInt(data)) == data[..2]
    ensures ByteToInt(data) == ByteToInt(data[..2])
  {
  }

  // ---------------------------------------------------------------------------
  // Debug hex dump
  // ---------------------------------------------------------------------------

  const HexDigits: string := "0123456789abcdef"

  function HexDigit(n: nat): char
    requires n < 16
  {
    HexDigits[n]
  }

  /** The value of one lower-case hexadecimal digit. */
  function DigitValue(c: char): (r: nat)
    ensures r < 16
  {
    if '0' <= c <= '9' then (c as int) - ('0' as int)
    else if 'a' <= c <= 'f' then (c as int) - ('a' as int) + 10
    else 0
  }

  lemma DigitRoundTrip(n: nat)
    requires n < 16
    ensures DigitValue(HexDigit(n)) == n
  {
  }

  /** One byte as `%#02x ` prints it: "0x", two lower-case digits, a space. */
  function HexByte(b: byte): (r: string)
    ensures |r| == 5 && r[0] == '0' && r[1] == 'x' && r[4] == ' '
    ensures r[2] == HexDigits[b / 16] && r[3] == HexDigits[b % 16]
  {
    "0x" + [HexDigit(b / 16), HexDigit(b % 16)] + " "
  }

  /** toHex: the concatenation of every byte's `0xHH ` form. */
  function ToHex(data: seq<byte>): (r: string)
    ensures |r| == 5 * |data|
  {
    if |data| == 0 then "" else HexByte(data[0]) + ToHex(data[1..])
  }

  lemma {:induction false} ToHexAppend(a: seq<byte>, b: seq<byte>)
    ensures ToHex(a + b) == ToHex(a) + ToHex(b)
  {
    if |a| == 0 {
      assert a + b == b;
    } else {
      assert (a + b)[1..] == a[1..] + b;
      ToHexAppend(a[1..], b);
    }
  }

  /** The five characters of the dump at position 5*i are exactly the form of byte i. */
  lemma {:induction false} ToHexAt(data: seq<byte>, i: nat)
    requires i < |data|
    ensures ToHex(data)[5 * i..5 * i + 5] == HexByte(data[i])
  {
    if i > 0 {
      ToHexAt(data[1..], i - 1);
      assert ToHex(data)[5 * i..5 * i + 5] == ToHex(data[1..])[5 * (i - 1)..5 * (i - 1) + 5];
    }
  }

  /** Reads a dump back into the bytes it shows: the inverse of `ToHex`. */
  function FromHex(s: string): (r: seq<byte>)
    ensures |r| == |s| / 5
  {
    if |s| < 5 then [] else [16 * DigitValue(s[2]) + DigitValue(s[3])] + FromHex(s[5..])
  }

  /** The two digits of one byte's form give the byte back. */
  lemma ByteFromHex(b: byte)
    ensures 16 * DigitValue(HexByte(b)[2]) + DigitValue(HexByte(b)[3]) == b
  {
    DigitRoundTrip(b / 16);
    DigitRoundTrip(b % 16);
  }

  lemma {:induction false} HexRoundTrip(data: seq<byte>)
    ensures FromHex(ToHex(data)) == data
  {
    if |data| > 0 {
      var h := HexByte(data[0]);
      var s := ToHex(data);
      assert s == h + ToHex(data[1..]);
      assert s[2] == h[2] && s[3] == h[3];
      assert s[5..] == ToHex(data[1..]);
      ByteFromHex(data[0]);
      HexRoundTrip(data[1..]);
    }
  }

  /** The worked example of the dump. */
  lemma ToHexVector()
    ensures ToHex([0x00, 0x01, 0x02, 0x0a, 0xff]) == "0x00 0x01 0x02 0x0a 0xff "
  {
  }

  // ---------------------------------------------------------------------------
  // The five fixed command frames
  // ---------------------------------------------------------------------------

  const CommandSetInitiativeUploadMode: seq<byte> := [0xFF, 0x01, 0x78, 0x40, 0x00, 0x00, 0x00, 0x00, 0x47]
  const CommandSetQAMode: seq<byte> := [0xFF, 0x01, 0x78, 0x41, 0x00, 0x00, 0x00, 0x00, 0x46]
  const CommandQuery: seq<byte> := [0xFF, 0x01, 0x86, 0x00, 0x00, 0x00, 0x00, 0x00, 0x79]
  const CommandDormantEnter: seq<byte> := [0xFF, 0x01, 0xA7, 0x01, 0x00, 0x00, 0x00, 0x00, 0x57]
  const CommandDormantQuit: seq<byte> := [0xFF, 0x01, 0xA7, 0x00, 0x00, 0x00, 0x00, 0x00, 0x58]

  /** A command frame: nine bytes, starting `FF 01`, closed by its own checksum. */
  predicate WellFormedCommand(c: seq<byte>)
  {
    |c| == 9 && c[0] == 0xFF && c[1] == 0x01 && HasValidTrailer(c)
  }

  lemma CommandsAreWellFormed()
    ensures WellFormedCommand(CommandSetInitiativeUploadMode)
    ensures WellFormedCommand(CommandSetQAMode)
    ensures WellFormedCommand(CommandQuery)
    ensures WellFormedCommand(CommandDormantEnter)
    ensures WellFormedCommand(CommandDormantQuit)
  {
    SetModeCommandsAreWellFormed();
    QueryIsWellFormed();
    DormantCommandsAreWellFormed();
  }

  lemma SetModeCommandsAreWellFormed()
    ensures WellFormedCommand(CommandSetInitiativeUploadMode)
    ensures WellFormedCommand(CommandSetQAMode)
  {
    ZeroTailedCommand(0x78, 0x40, 0x47);
    ZeroTailedCommand(0x78, 0x41, 0x46);
  }

  lemma QueryIsWellFormed()
    ensures WellFormedCommand(CommandQuery)
  {
    ZeroTailedCommand(0x86, 0x00, 0x79);
  }

  lemma DormantCommandsAreWellFormed()
    ensures WellFormedCommand(CommandDormantEnter)
    ensures WellFormedCommand(CommandDormantQuit)
  {
    ZeroTailedCommand(0xA7, 0x01, 0x57);
    ZeroTailedCommand(0xA7, 0x00, 0x58);
  }

  /** A command `FF 01 op arg 00 00 00 00 t` is well formed when `t` negates 1 + op + arg. */
  lemma ZeroTailedCommand(op: byte, arg: byte, t: byte)
    requires t == (256 - (1 + op + arg as int) % 256) % 256
    ensures WellFormedCommand([0xFF, 0x01, op, arg, 0x00, 0x00, 0x00, 0x00, t])
  {
    var c: seq<byte> := [0xFF, 0x01, op, arg, 0x00, 0x00, 0x00, 0x00, t];
    assert ChecksumBody(c) == [0x01, op, arg, 0, 0, 0, 0];
    SumOfBytes7(0x01, op, arg, 0, 0, 0, 0);
  }
}

=== FILE: facade.dfy ===
/**
 * The legacy mode facade: a sensor built for one communication mode sends the
 * set-mode frame first and only then picks the implementation that serves its
 * reads; a read is delegated untouched. The file also carries its own copies
 * of the checksum, field and dump helpers, which agree with the shared ones.
 */
module Facade {
  import Common
  import InitiativeUpload
  import QuestionAnswer

  /** A communication mode is a plain integer; only two values name a mode. */
  type CommunicationMode = int

  const ModeInitiative: CommunicationMode := 0
  const ModeQA: CommunicationMode := 1

  /** String: the display name of a mode, empty for a value that names none. */
  function ModeName(m: CommunicationMode): (r: string)
    ensures r != "" <==> m == ModeInitiative || m == ModeQA
    ensures r == "InitiativeUpload" <==> m == ModeInitiative
    ensures r == "QuestionAndAnswer" <==> m == ModeQA
  {
    if m == ModeInitiative then "InitiativeUpload"
    else if m == ModeQA then "QuestionAndAnswer"
    else ""
  }

  /** CommunicationModeFromString: "initiative" and "qa" are the only accepted spellings. */
  function ModeFromString(s: string): (r: Common.Result<CommunicationMode>)
    ensures r.Ok? <==> s == "initiative" || s == "qa"
    ensures r.Ok? ==> ModeName(r.value) != ""
    ensures r.Ok? ==> (r.value == ModeQA <==> s == "qa")
    ensures r.Err? ==> r.error == Common.UnknownMode(s)
  {
    if s == "initiative" then Common.Ok(ModeInitiative)
    else if s == "qa" then Common.Ok(ModeQA)
    else Common.Err(Common.UnknownMode(s))
  }

  /** Every mode that has a name is the parse of some accepted spelling. */
  lemma NamedModesAreParsable(m: CommunicationMode)
    requires ModeName(m) != ""
    ensures exists s :: ModeFromString(s) == Common.Ok(m)
  {
    if m == ModeInitiative {
      assert ModeFromString("initiative") == Common.Ok(m);
    } else {
      assert ModeFromString("qa") == Common.Ok(m);
    }
  }

  /**
   * The frame setMode sends: the set-initiative-upload frame, with its mode
   * byte and trailer patched to 0x41 and 0x46 when the mode is Q&A.
   */
  function SetModeFrame(mode: CommunicationMode): (r: seq<Common.byte>)
    ensures r == (if mode == ModeQA then Common.CommandSetQAMode else Common.CommandSetInitiativeUploadMode)
    ensures Common.WellFormedCommand(r)
  {
    Common.CommandsAreWellFormed();
    var frame: seq<Common.byte> := [0xFF, 0x01, 0x78, 0x40, 0x00, 0x00, 0x00, 0x00, 0x47];
    if mode == ModeQA then frame[3 := 0x41][8 := 0x46] else frame
  }

  /** The implementation a facade delegates to; `Unset` for a mode value that names none. */
  datatype Impl =
    | Initiative(streaming: InitiativeUpload.Sensor)
    | QA(qa: QuestionAnswer.Sensor)
    | Unset

  /** A ZH07: its mode and the implementation chosen for it. */
  datatype ZH07 = ZH07(mode: CommunicationMode, impl: Impl)

  /** The outcome of construction and the port afterwards. */
  datatype Built = Built(sensor: Common.Result<ZH07>, port: Common.Port)

  /** What one facade read returns: the outcome, the facade afterwards, the port afterwards. */
  datatype Step = Step(result: Common.ReadResult, sensor: ZH07, port: Common.Port)

  /** setMode: a write fault is returned; a flush fault is dropped. */
  function SetMode(mode: CommunicationMode, port: Common.Port): (r: Common.Sent)
    ensures r.status == port.writeFault
    ensures port.writeFault.Pass? ==> r.port == port.(written := port.written + [SetModeFrame(mode)])
    ensures port.writeFault.Fail? ==> r.port == port
  {
    if port.writeFault.Fail? then Common.Sent(port.writeFault, port)
    else Common.Sent(Common.Pass, Common.Write(port, SetModeFrame(mode)).port)
  }

  /** The implementation NewZH07 installs for a mode. */
  function ImplFor(mode: CommunicationMode): Impl
  {
    if mode == ModeInitiative then Initiative(InitiativeUpload.Sensor([]))
    else if mode == ModeQA then QA(QuestionAnswer.NewZH07q())
    else Unset
  }

  /**
   * NewZH07: the set-mode frame goes out before anything else; if it cannot
   * be written there is no sensor, otherwise the mode picks the implementation.
   */
  function NewZH07(mode: CommunicationMode, port: Common.Port): (r: Built)
    ensures r.sensor.Err? <==> port.writeFault.Fail?
    ensures r.sensor.Err? ==> r.sensor.error == port.writeFault.error && r.port == port
    ensures r.sensor.Ok? ==> r.port == port.(written := port.written + [SetModeFrame(mode)])
    ensures r.sensor.Ok? && mode == ModeQA ==> r.port.written == port.written + [Common.CommandSetQAMode]
    ensures r.sensor.Ok? && mode != ModeQA ==> r.port.written == port.written + [Common.CommandSetInitiativeUploadMode]
    ensures r.sensor.Ok? ==> r.sensor.value.mode == mode
    ensures r.sensor.Ok? ==> (r.sensor.value.impl.Initiative? <==> mode == ModeInitiative)
    ensures r.sensor.Ok? ==> (r.sensor.value.impl.QA? <==> mode == ModeQA)
  {
    var sent := SetMode(mode, port);
    if sent.status.Fail? then Built(Common.Err(sent.status.error), sent.port)
    else Built(Common.Ok(ZH07(mode, ImplFor(mode))), sent.port)
  }

  /**
   * ZH07.Read: the active implementation's result, unchanged. A streaming read
   * consumes waiting bytes and writes nothing; a Q&A read sends the query and
   * takes up to nine waiting bytes as the reply.
   */
  function Read(z: ZH07, port: Common.Port): (r: Step)
    requires !z.impl.Unset?
    ensures r.sensor.mode == z.mode
    ensures z.impl.Initiative? ==>
              var s := InitiativeUpload.Read(z.impl.streaming, port.incoming);
              r.result == s.result && r.sensor.impl == Initiative(s.sensor) && r.port == port.(incoming := s.rest)
    ensures z.impl.QA? ==>
              var q := QuestionAnswer.Read(z.impl.qa, port);
              r.result == q.result && r.sensor.impl == QA(q.sensor) && r.port == q.port
    ensures z.impl.Initiative? ==> r.port.written == port.written
    ensures z.impl.QA? && port.readFault.Fail? ==>
              r.result == Common.Failed(port.readFault.error) && r.port.incoming == port.incoming
    ensures z.impl.QA? && port.readFault.Pass? ==>
              r.port.incoming == if |port.incoming| >= QuestionAnswer.ReplySize then port.incoming[QuestionAnswer.ReplySize..] else []
    ensures z.impl.QA? && r.result.Got? ==>
              port.readFault.Pass? && |port.incoming| > 0 && Common.HasValidTrailer(QuestionAnswer.Padded(port.incoming))
  {
    match z.impl
    case Initiative(s) =>
      var step := InitiativeUpload.Read(s, port.incoming);
      Step(step.result, ZH07(z.mode, Initiative(step.sensor)), port.(incoming := step.rest))
    case QA(q) =>
      var step := QuestionAnswer.Read(q, port);
      Step(step.result, ZH07(z.mode, QA(step.sensor)), step.port)
  }

  /** A facade built for Q&A mode refuses a reply with a bad trailer, while a streaming one never checks. */
  lemma ModesDifferOnBadTrailer(port: Common.Port)
    requires port.writeFault.Pass?
    ensures var b := NewZH07(ModeQA, port.(incoming := QuestionAnswer.SampleReplyBadChecksum, readFault := Common.Pass));
            b.sensor.Ok? &&
            Read(b.sensor.value, b.port).result == Common.Failed(Common.ChecksumMismatch(0xFB, 0xFA))
    ensures var b := NewZH07(ModeInitiative, port.(incoming := InitiativeUpload.SampleFrameBadChecksum));
            b.sensor.Ok? &&
            Read(b.sensor.value, b.port).result == Common.Got(Common.Reading(0x54, 0x6E, 0x7C))
  {
    var q := NewZH07(ModeQA, port.(incoming := QuestionAnswer.SampleReplyBadChecksum, readFault := Common.Pass));
    QuestionAnswer.SampleReplies(QuestionAnswer.NewZH07q(), q.port, Common.CommError);
    assert q.port.(incoming := QuestionAnswer.SampleReplyBadChecksum, readFault := Common.Pass) == q.port;
    var b := NewZH07(ModeInitiative, port.(incoming := InitiativeUpload.SampleFrameBadChecksum));
    InitiativeUpload.BadChecksumSampleDecodes();
    InitiativeUpload.OutcomeIgnoresBuffer(InitiativeUpload.Sensor([]), InitiativeUpload.NewZH07i(),
                                          InitiativeUpload.SampleFrameBadChecksum);
  }

  // ---------------------------------------------------------------------------
  // The file's own copies of the shared helpers
  // ---------------------------------------------------------------------------

  /** CalculateChecksum: the 8-bit loop of this file gives the shared question & answer checksum. */
  method CalculateChecksum(d: seq<Common.byte>) returns (r: int)
    requires |d| >= 2
    ensures r == Common.Checksum(d)
  {
    var tempq: Common.byte := 0;
    var i := 1;
    while i < |d| - 1
      invariant 1 <= i <= |d| - 1
      invariant tempq == Common.WrappingSum(d[1..i])
    {
      assert d[1..i + 1][..i - 1] == d[1..i];
      tempq := (tempq + d[i]) % 256;
      i := i + 1;
    }
    r := (Common.Complement(tempq) + 1) % 256;
  }

  /** ByteToInt: this file's big-endian decoder equals the shared one. */
  function ByteToInt(data: seq<Common.byte>): (r: nat)
    requires |data| >= 2
    ensures r == Common.ByteToInt(data)
  {
    data[1] as int + (data[0] as int) * 256
  }

  /** ToHex: this file's dump loop builds the same text as the shared one. */
  method ToHex(data: seq<Common.byte>) returns (result: string)
    ensures result == Common.ToHex(data)
  {
    result := "";
    var i := 0;
    while i < |data|
      invariant 0 <= i <= |data|
      invariant result == Common.ToHex(data[..i])
    {
      assert data[..i + 1] == data[..i] + [data[i]];
      Common.ToHexAppend(data[..i], [data[i]]);
      result := result + Common.HexByte(data[i]);
      i := i + 1;
    }
    assert data[..|data|] == data;
  }
}

=== FILE: initiative.dfy ===
/**
 * Initiative-upload (streaming) mode: the sensor emits 32-byte frames on its
 * own, and every read attempt resynchronises on the `42 4D` start marker.
 * A read is a pure function of the bytes waiting on the line: it returns the
 * outcome, the sensor's frame buffer afterwards, and the bytes left unread.
 */
module InitiativeUpload {
  import opened Common

  /** Size of one frame: 4 header bytes and 28 more. */
  const FrameSize: nat := 32

  /** The value the frame-length field must hold: the bytes after the header. */
  const BodySize: nat := 28

  /** A ZH07i: its frame buffer, overwritten by every successful read. */
  datatype Sensor = Sensor(data: seq<byte>)

  /** What one read attempt returns: the outcome, the sensor afterwards, the unread bytes. */
  datatype Step = Step(result: ReadResult, sensor: Sensor, rest: seq<byte>)

  /** NewZH07i: a zero-filled buffer of one frame's size. */
  function NewZH07i(): (z: Sensor)
    ensures |z.data| == FrameSize
    ensures forall i :: 0 <= i < |z.data| ==> z.data[i] == 0
  {
    Sensor(seq(FrameSize, _ => 0))
  }

  /** Init: sends exactly the set-initiative-upload command; a transport fault comes back as is. */
  function Init(port: Port): (r: Sent)
    ensures port.writeFault.Fail? ==> r.status == port.writeFault && r.port == port
    ensures port.writeFault.Pass? ==> r.status == port.flushFault
    ensures port.writeFault.Pass? ==> r.port == port.(written := port.written + [CommandSetInitiativeUploadMode])
  {
    Write(port, CommandSetInitiativeUploadMode)
  }

  /** CalculateChecksum: the plain (never wrapping) sum of the first 30 buffer bytes. */
  method CalculateChecksum(z: Sensor) returns (r: int)
    requires |z.data| >= 30
    ensures r == Sum(z.data[..30])
    ensures 0 <= r <= 7650
  {
    r := 0;
    var i := 0;
    while i < 30
      invariant 0 <= i <= 30
      invariant r == Sum(z.data[..i])
    {
      assert z.data[..i + 1][..i] == z.data[..i];
      r := r + z.data[i];
      i := i + 1;
    }
    SumBound(z.data[..30]);
  }

  /** getChecksum: the big-endian value stored in bytes 30 and 31. */
  function GetChecksum(z: Sensor): (r: nat)
    requires |z.data| >= FrameSize
    ensures r < 65536 && r / 256 == z.data[30] && r % 256 == z.data[31]
    ensures r == Sum(z.data[..30]) <==> FrameChecksumValid(z.data)
  {
    assert z.data[30..][..2] == z.data[30..FrameSize];
    ByteToInt(z.data[30..])
  }

  /** The frame's trailer agrees with the sum of its first 30 bytes. */
  predicate FrameChecksumValid(data: seq<byte>)
    requires |data| >= FrameSize
  {
    Sum(data[..30]) == ByteToInt(data[30..FrameSize])
  }

  /** IsReadingValid: the trailer is exactly the big-endian encoding of the sum of bytes 0..29. */
  method IsReadingValid(z: Sensor) returns (b: bool)
    requires |z.data| >= FrameSize
    ensures b <==> z.data[30] == Sum(z.data[..30]) / 256 && z.data[31] == Sum(z.data[..30]) % 256
    ensures b <==> FrameChecksumValid(z.data)
  {
    var computed := CalculateChecksum(z);
    b := computed == GetChecksum(z);
    assert z.data[30..][..2] == z.data[30..FrameSize];
  }

  /** The four header bytes of a frame: `42 4D` and the length 28 in big-endian. */
  predicate StartsWithHeader(s: seq<byte>)
  {
    |s| >= 4 && s[0] == 0x42 && s[1] == 0x4D && s[2] == 0x00 && s[3] == 0x1C
  }

  /** The three measurements of a streaming frame, at offsets 10, 12 and 14. */
  function FrameReading(frame: seq<byte>): Reading
    requires |frame| >= 16
  {
    Reading(pm1 := ByteToInt(frame[10..12]), pm25 := ByteToInt(frame[12..14]), pm10 := ByteToInt(frame[14..16]))
  }

  /**
   * Read: one byte that must be 0x42, then one plain read of up to three bytes
   * that must be 0x4D and a length of 28, then exactly 28 more bytes. A wrong
   * marker or length is "no reading yet"; running out of bytes is an error,
   * except after a wrong first byte. The trailer checksum is not consulted.
   */
  function Read(z: Sensor, incoming: seq<byte>): (r: Step)
    ensures |r.rest| <= |incoming| && r.rest == incoming[|incoming| - |r.rest|..]
    ensures r.result.Failed? <==>
              || |incoming| == 0
              || (incoming[0] == 0x42 && |incoming| == 1)
              || (StartsWithHeader(incoming) && |incoming| < FrameSize)
    ensures r.result.Failed? ==> r.result.error == CommError && r.rest == [] && r.sensor == z
    ensures r.result.Got? <==> StartsWithHeader(incoming) && |incoming| >= FrameSize
    ensures r.result.Got? ==> r.sensor.data == incoming[..FrameSize] && r.rest == incoming[FrameSize..]
    ensures r.result.Got? ==> r.result.reading.pm1 == ByteToInt(incoming[10..12])
    ensures r.result.Got? ==> r.result.reading.pm25 == ByteToInt(incoming[12..14])
    ensures r.result.Got? ==> r.result.reading.pm10 == ByteToInt(incoming[14..16])
    ensures r.result.NoReading? ==> r.sensor == z
    ensures r.result.NoReading? ==>
              r.rest == (if incoming[0] != 0x42 then incoming[1..] else if |incoming| >= 4 then incoming[4..] else [])
  {
    match ReadSome(incoming, 1)
    case Exhausted => Step(Failed(CommError), z, [])
    case Fetched(b0, afterStart) =>
      if b0[0] != 0x42 then Step(NoReading, z, afterStart)
      else
        match ReadSome(afterStart, 3)
        case Exhausted => Step(Failed(CommError), z, [])
        case Fetched(b1, afterHeader) =>
          if b1[0] != 0x4D then Step(NoReading, z, afterHeader)
          else if ByteToInt(b1[1..3]) != BodySize then Step(NoReading, z, afterHeader)
          else
            match ReadFull(afterHeader, BodySize)
            case Exhausted => Step(Failed(CommError), z, [])
            case Fetched(body, afterFrame) =>
              var data := b0 + b1 + body;
              assert data == incoming[..FrameSize];
              assert data[10..12] == incoming[10..12] && data[12..14] == incoming[12..14] && data[14..16] == incoming[14..16];
              Step(Got(FrameReading(data)), Sensor(data), afterFrame)
  }

  /**
   * A header read that comes up short is zero-padded, and a padded length field
   * is never 28: two or three waiting bytes never make a frame, nor an error.
   */
  lemma ShortHeaderNeverFrames(z: Sensor, incoming: seq<byte>)
    requires 2 <= |incoming| <= 3 && incoming[0] == 0x42
    ensures Read(z, incoming) == Step(NoReading, z, [])
  {
  }

  /** Waiting bytes that start with a header and hold a whole frame always give that frame's reading. */
  lemma HeaderGivesReading(z: Sensor, incoming: seq<byte>)
    requires StartsWithHeader(incoming) && |incoming| >= FrameSize
    ensures Read(z, incoming).result == Got(FrameReading(incoming[..30]))
  {
  }

  /** At least a frame's worth of waiting bytes without a header never gives a reading nor an error. */
  lemma NoHeaderGivesNothing(z: Sensor, incoming: seq<byte>)
    requires !StartsWithHeader(incoming) && |incoming| >= FrameSize
    ensures Read(z, incoming).result == NoReading
  {
  }

  /** Given a whole frame's worth of waiting bytes, the outcome depends on the header alone. */
  lemma LongInputOutcome(z: Sensor, incoming: seq<byte>)
    requires |incoming| >= FrameSize
    ensures Read(z, incoming).result ==
              if StartsWithHeader(incoming) then Got(FrameReading(incoming[..30])) else NoReading
  {
    if StartsWithHeader(incoming) {
      HeaderGivesReading(z, incoming);
    } else {
      NoHeaderGivesNothing(z, incoming);
    }
  }

  /** Frames that differ only in their trailer decode to the same outcome. */
  lemma ChecksumNotConsulted(z: Sensor, a: seq<byte>, b: seq<byte>)
    requires |a| >= FrameSize && |b| >= FrameSize
    requires a[..30] == b[..30]
    ensures Read(z, a).result == Read(z, b).result
  {
    assert a[..4] == a[..30][..4] == b[..4];
    assert StartsWithHeader(a) == StartsWithHeader(b);
    LongInputOutcome(z, a);
    LongInputOutcome(z, b);
  }

  /** The outcome of a read does not depend on what the frame buffer held before. */
  lemma OutcomeIgnoresBuffer(a: Sensor, b: Sensor, incoming: seq<byte>)
    ensures Read(a, incoming).result == Read(b, incoming).result
    ensures Read(a, incoming).rest == Read(b, incoming).rest
  {
  }

  /**
   * A stray 0x42 right before a frame is taken as its start byte: the attempt
   * yields no reading and swallows the frame's own `42 4D 00`, so the next
   * attempt cannot find that frame's header any more.
   */
  lemma {:induction false} StrayStartByteLosesFrame(z: Sensor, frame: seq<byte>)
    requires StartsWithHeader(frame) && |frame| >= FrameSize
    ensures Read(z, [0x42] + frame) == Step(NoReading, z, frame[3..])
    ensures !StartsWithHeader(Read(z, [0x42] + frame).rest)
  {
    var s := [0x42] + frame;
    assert !StartsWithHeader(s);
    assert s[4..] == frame[3..];
  }

  // ---------------------------------------------------------------------------
  // Repeated reads
  // ---------------------------------------------------------------------------

  /** What `n` read attempts in a row return: their outcomes, the sensor afterwards, the bytes left. */
  datatype Run = Run(results: seq<ReadResult>, sensor: Sensor, rest: seq<byte>)

  /** A caller polling `Read` `n` times on the same waiting bytes. */
  function Drain(z: Sensor, incoming: seq<byte>, n: nat): (r: Run)
    ensures |r.results| == n
    decreases n
  {
    if n == 0 then Run([], z, incoming)
    else
      var step := Read(z, incoming);
      var more := Drain(step.sensor, step.rest, n - 1);
      Run([step.result] + more.results, more.sensor, more.rest)
  }

  /** Bytes other than 0x42 are skipped one read at a time, each read yielding no reading. */
  lemma {:induction false} SkipsNonStartBytes(z: Sensor, s: seq<byte>, t: seq<byte>)
    requires forall i :: 0 <= i < |s| ==> s[i] != 0x42
    ensures Drain(z, s + t, |s|) == Run(seq(|s|, _ => NoReading), z, t)
  {
    if |s| > 0 {
      assert (s + t)[0] == s[0];
      assert (s + t)[1..] == s[1..] + t;
      SkipsNonStartBytes(z, s[1..], t);
      OneMoreNothing(|s| - 1);
    }
  }

  /** A first attempt that yields nothing and keeps the sensor just drops its bytes from the run. */
  lemma FirstReadYieldsNothing(z: Sensor, incoming: seq<byte>, n: nat, rest: seq<byte>)
    requires n > 0 && Read(z, incoming) == Step(NoReading, z, rest)
    ensures Drain(z, incoming, n).results == [NoReading] + Drain(z, rest, n - 1).results
    ensures Drain(z, incoming, n).sensor == Drain(z, rest, n - 1).sensor
    ensures Drain(z, incoming, n).rest == Drain(z, rest, n - 1).rest
  {
  }

  /**
   * A stray 0x42 swallows a frame's `42 4D 00`; then the parser skips the
   * bytes `s` that follow, one at a time, as long as none of them is 0x42.
   */
  lemma {:induction false} StrayStartThenSkip(z: Sensor, f: seq<byte>, s: seq<byte>, t: seq<byte>)
    requires StartsWithHeader(f + s + t) && |f + s + t| >= FrameSize && |f| == 3
    requires forall i :: 0 <= i < |s| ==> s[i] != 0x42
    ensures Drain(z, [0x42] + (f + s + t), |s| + 1) == Run(seq(|s| + 1, _ => NoReading), z, t)
  {
    var x := f + s + t;
    StrayStartByteLosesFrame(z, x);
    assert x[3..] == s + t;
    FirstReadYieldsNothing(z, [0x42] + x, |s| + 1, s + t);
    SkipsNonStartBytes(z, s, t);
    OneMoreNothing(|s|);
  }

  /** One more empty-handed attempt in front of n of them. */
  lemma OneMoreNothing(n: nat)
    ensures [NoReading] + seq(n, _ => NoReading) == seq(n + 1, _ => NoReading)
  {
  }

  /**
   * After a stray 0x42 has swallowed a frame's `42 4D 00`, the parser skips
   * that frame's bytes 3..31 one at a time. When none of them is 0x42, the
   * next frame is read on the 31st attempt.
   */
  lemma LostFrameRecovers(z: Sensor, f: seq<byte>, g: seq<byte>)
    requires |f| == FrameSize && StartsWithHeader(f)
    requires forall i :: 3 <= i < FrameSize ==> f[i] != 0x42
    requires StartsWithHeader(g) && |g| >= FrameSize
    ensures Drain(z, [0x42] + (f + g), 30) == Run(seq(30, _ => NoReading), z, g)
    ensures Read(z, g).result == Got(FrameReading(g[..30]))
  {
    assert f + g == f[..3] + f[3..] + g;
    StrayStartThenSkip(z, f[..3], f[3..], g);
    HeaderGivesReading(z, g);
  }

  /**
   * The loss cascades: when the swallowed frame's last byte is 0x42 (and no
   * earlier byte after its header is), skipping ends on that byte, which is
   * taken as a start byte in front of the next frame, so that frame is lost too.
   */
  lemma FrameLossCascades(z: Sensor, f: seq<byte>, g: seq<byte>)
    requires |f| == FrameSize && StartsWithHeader(f) && f[31] == 0x42
    requires forall i :: 3 <= i < 31 ==> f[i] != 0x42
    requires StartsWithHeader(g) && |g| >= FrameSize
    ensures Drain(z, [0x42] + (f + g), 29) == Run(seq(29, _ => NoReading), z, [0x42] + g)
    ensures Read(z, [0x42] + g) == Step(NoReading, z, g[3..])
  {
    SkipToLastByte(z, f, g);
    StrayStartByteLosesFrame(z, g);
  }

  /** The skipping phase of the cascade: it stops right in front of the swallowed frame's last byte. */
  lemma SkipToLastByte(z: Sensor, f: seq<byte>, g: seq<byte>)
    requires |f| == FrameSize && StartsWithHeader(f) && f[31] == 0x42
    requires forall i :: 3 <= i < 31 ==> f[i] != 0x42
    ensures Drain(z, [0x42] + (f + g), 29) == Run(seq(29, _ => NoReading), z, [0x42] + g)
  {
    CascadeInputShape(f, g);
    StrayStartThenSkip(z, f[..3], f[3..31], [0x42] + g);
  }

  /** How the cascade input splits: the frame's header, 28 bytes without 0x42, then 0x42 in front of the rest. */
  lemma CascadeInputShape(f: seq<byte>, g: seq<byte>)
    requires |f| == FrameSize && StartsWithHeader(f) && f[31] == 0x42
    requires forall i :: 3 <= i < 31 ==> f[i] != 0x42
    ensures f + g == f[..3] + f[3..31] + ([0x42] + g)
    ensures StartsWithHeader(f + g) && |f + g| >= FrameSize
    ensures |f[..3]| == 3 && |f[3..31]| == 28
    ensures forall i :: 0 <= i < |f[3..31]| ==> f[3..31][i] != 0x42
  {
    assert f == f[..3] + f[3..31] + [0x42];
  }

  /**
   * A frame with a valid checksum whose trailer ends in 0x42: PM1.0 0x97 in
   * byte 11, so bytes 0..29 sum to 0x0142.
   */
  const CascadeFrame: seq<byte> := [
    0x42, 0x4D, 0x00, 0x1C,
    0x00, 0x00, 0x00, 0x00, 0x00, 0x00,
    0x00, 0x97, 0x00, 0x00, 0x00, 0x00,
    0x00, 0x00, 0x00, 0x00, 0x00, 0x00, 0x00, 0x00, 0x00, 0x00, 0x00, 0x00, 0x00, 0x00,
    0x01, 0x42]

  /** A correctly checksummed frame can start the cascade, so it is not only malformed input that loses frames. */
  lemma CascadeFrameIsValid()
    ensures FrameChecksumValid(CascadeFrame)
    ensures StartsWithHeader(CascadeFrame) && CascadeFrame[31] == 0x42
    ensures forall i :: 3 <= i < 31 ==> CascadeFrame[i] != 0x42
  {
    CascadeFrameSum();
    assert CascadeFrame[30..FrameSize] == [0x01, 0x42];
  }

  /** A checksummed frame ending in 0x42, after a stray 0x42, takes the sample frame behind it down too. */
  lemma ValidFrameCascades(z: Sensor)
    ensures FrameChecksumValid(CascadeFrame)
    ensures Drain(z, [0x42] + (CascadeFrame + SampleFrame), 29) == Run(seq(29, _ => NoReading), z, [0x42] + SampleFrame)
    ensures Read(z, [0x42] + SampleFrame).result == NoReading
  {
    CascadeFrameIsValid();
    SampleFrameFields();
    FrameLossCascades(z, CascadeFrame, SampleFrame);
  }

  lemma CascadeFrameSum()
    ensures Sum(CascadeFrame[..30]) == 0x0142
  {
    var c1: seq<byte> := [0x42, 0x4D, 0x00, 0x1C, 0x00, 0x00, 0x00];
    var c2: seq<byte> := [0x00, 0x00, 0x00, 0x00, 0x97, 0x00, 0x00];
    assert CascadeFrame[..14] == c1 + c2;
    SumOfBytes7(0x42, 0x4D, 0x00, 0x1C, 0x00, 0x00, 0x00);
    SumOfBytes7(0x00, 0x00, 0x00, 0x00, 0x97, 0x00, 0x00);
    SumAppend(c1, c2);
    assert CascadeFrame[..30] == CascadeFrame[..14] + CascadeFrame[14..30];
    SumOfZeros(CascadeFrame[14..30]);
    SumAppend(CascadeFrame[..14], CascadeFrame[14..30]);
  }

  // ---------------------------------------------------------------------------
  // The sample frames
  // ---------------------------------------------------------------------------

  /** A frame as the sensor sends it: PM1.0 0x54, PM2.5 0x6E, PM10 0x7C, checksum 0x0327. */
  const SampleFrame: seq<byte> := [
    0x42, 0x4D, 0x00, 0x1C,
    0x00, 0x54, 0x00, 0x6E, 0x00, 0x7C,
    0x00, 0x54, 0x00, 0x6E, 0x00, 0x7C,
    0x00, 0x00, 0x00, 0x00, 0x00, 0x00, 0x00, 0x00, 0x00, 0x00, 0x00, 0x00, 0x00, 0x00,
    0x03, 0x27]

  /** The same frame with the low checksum byte off by one. */
  const SampleFrameBadChecksum: seq<byte> := SampleFrame[31 := 0x28]

  /** Bytes 0..15 of the sample: the header and the first six data fields. */
  lemma SampleHeadSum()
    ensures Sum(SampleFrame[..16]) == 0x0327
  {
    var c1: seq<byte> := [0x42, 0x4D, 0x00, 0x1C, 0x00, 0x54, 0x00];
    var c2: seq<byte> := [0x6E, 0x00, 0x7C, 0x00, 0x54, 0x00, 0x6E];
    var c3: seq<byte> := [0x00, 0x7C];
    assert SampleFrame[..16] == c1 + c2 + c3;
    SumOfBytes7(0x42, 0x4D, 0x00, 0x1C, 0x00, 0x54, 0x00);
    SumOfBytes7(0x6E, 0x00, 0x7C, 0x00, 0x54, 0x00, 0x6E);
    assert c3[..1] == [0x00];
    SumAppend(c1, c2);
    SumAppend(c1 + c2, c3);
  }

  lemma SampleSum()
    ensures Sum(SampleFrame[..30]) == 0x0327
  {
    assert SampleFrame[..30] == SampleFrame[..16] + SampleFrame[16..30];
    SampleHeadSum();
    SumOfZeros(SampleFrame[16..30]);
    SumAppend(SampleFrame[..16], SampleFrame[16..30]);
  }

  /** A whole frame and nothing after it is consumed entirely and decoded. */
  lemma ReadWholeFrame(z: Sensor, frame: seq<byte>)
    requires StartsWithHeader(frame) && |frame| == FrameSize
    ensures Read(z, frame) == Step(Got(FrameReading(frame)), Sensor(frame), [])
  {
    assert frame[..FrameSize] == frame;
  }

  /** The sample is a whole frame whose measurement fields hold 0x54 / 0x6E / 0x7C. */
  lemma SampleFrameFields()
    ensures StartsWithHeader(SampleFrame) && |SampleFrame| == FrameSize
    ensures FrameReading(SampleFrame) == Reading(0x54, 0x6E, 0x7C)
  {
    FrameReadingBytes(SampleFrame);
  }

  /** Each measurement is the big-endian pair at its offset. */
  lemma FrameReadingBytes(frame: seq<byte>)
    requires |frame| >= 16
    ensures FrameReading(frame) == Reading(pm1 := frame[10] as int * 256 + frame[11],
                                           pm25 := frame[12] as int * 256 + frame[13],
                                           pm10 := frame[14] as int * 256 + frame[15])
  {
  }

  /** The sample decodes to 0x54 / 0x6E / 0x7C. */
  lemma SampleFrameDecodes()
    ensures Read(NewZH07i(), SampleFrame) == Step(Got(Reading(0x54, 0x6E, 0x7C)), Sensor(SampleFrame), [])
  {
    SampleFrameFields();
    ReadWholeFrame(NewZH07i(), SampleFrame);
  }

  /** The frame with the wrong trailer decodes to the very same reading. */
  lemma BadChecksumSampleDecodes()
    ensures Read(NewZH07i(), SampleFrameBadChecksum).result == Got(Reading(0x54, 0x6E, 0x7C))
  {
    SampleFrameDecodes();
    assert SampleFrameBadChecksum[..30] == SampleFrame[..30];
    ChecksumNotConsulted(NewZH07i(), SampleFrame, SampleFrameBadChecksum);
  }

  /** Only the good trailer 0x0327 passes the streaming checksum; 0x0328 does not. */
  lemma SampleChecksums()
    ensures FrameChecksumValid(SampleFrame)
    ensures !FrameChecksumValid(SampleFrameBadChecksum)
    ensures GetChecksum(Sensor(SampleFrame)) == 0x0327
  {
    SampleSum();
    assert SampleFrameBadChecksum[..30] == SampleFrame[..30];
    assert SampleFrame[30..FrameSize] == [0x03, 0x27];
    assert SampleFrameBadChecksum[30..FrameSize] == [0x03, 0x28];
  }

  /** The parser's unit cases that end without a reading: a wrong start byte, a short header, a wrong length. */
  lemma ParserVectors(z: Sensor)
    ensures Read(z, [0x00]) == Step(NoReading, z, [])
    ensures Read(z, [0x42, 0x00]) == Step(NoReading, z, [])
    ensures Read(z, [0x42, 0x4D, 0x00, 0x00]) == Step(NoReading, z, [])
  {
  }

  /** The parser's unit cases that end in an error: nothing waiting, or a header with a truncated body. */
  lemma ParserErrorVectors(z: Sensor)
    ensures Read(z, [0x42, 0x4D, 0x00, 0x1C, 0x00]) == Step(Failed(CommError), z, [])
    ensures Read(z, []) == Step(Failed(CommError), z, [])
  {
  }
}

=== FILE: question_answer.dfy ===
/**
 * Question & answer mode: the host sends the query command and takes one
 * plain read of up to 9 bytes as the reply, accepted only when its trailer is
 * the question & answer checksum of the reply.
 */
module QuestionAnswer {
  import opened Common

  /** Size of a reply frame. */
  const ReplySize: nat := 9

  /** A ZH07q: the last reply it received (empty before the first exchange and after a failed one). */
  datatype Sensor = Sensor(data: seq<byte>)

  /** What one read attempt returns: the outcome, the sensor afterwards, the port afterwards. */
  datatype Step = Step(result: ReadResult, sensor: Sensor, port: Port)

  /** NewZH07q: no reply received yet. */
  function NewZH07q(): (z: Sensor)
    ensures |z.data| == 0
  {
    Sensor([])
  }

  /** Init: sends exactly the set-Q&A-mode command; a transport fault comes back as is. */
  function Init(port: Port): (r: Sent)
    ensures port.writeFault.Fail? ==> r.status == port.writeFault && r.port == port
    ensures port.writeFault.Pass? ==> r.status == port.flushFault
    ensures port.writeFault.Pass? ==> r.port == port.(written := port.written + [CommandSetQAMode])
  {
    Write(port, CommandSetQAMode)
  }

  /** CalculateChecksum: the question & answer checksum of the stored reply; it cancels bytes 1..|data|-2. */
  function CalculateChecksum(z: Sensor): (r: byte)
    requires |z.data| >= 2
    ensures (Sum(z.data[1..|z.data| - 1]) + r) % 256 == 0
  {
    Checksum(z.data)
  }

  /** getChecksum: byte 8, the trailer slot that the reply's checksum is compared against. */
  function GetChecksum(z: Sensor): (r: byte)
    requires |z.data| >= ReplySize
    ensures |z.data| == ReplySize ==> r == z.data[|z.data| - 1]
    ensures |z.data| == ReplySize ==> (r == Checksum(z.data) <==> HasValidTrailer(z.data))
  {
    z.data[8]
  }

  /** IsReadingValid: the trailer equals the computed checksum; for a 9-byte reply, exactly when bytes 1..8 sum to 0 modulo 256. */
  predicate IsReadingValid(z: Sensor)
    requires |z.data| >= ReplySize
    ensures |z.data| == ReplySize ==> (IsReadingValid(z) <==> Sum(z.data[1..]) % 256 == 0)
  {
    ValidTrailerIffSumVanishes(z.data);
    CalculateChecksum(z) == GetChecksum(z)
  }

  /**
   * The reply buffer `writeAndRead` hands back: the waiting bytes, at most 9 of
   * them, with the rest of the 9-byte buffer left zero.
   */
  function Padded(incoming: seq<byte>): (r: seq<byte>)
    requires 0 < |incoming|
    ensures |r| == ReplySize
    ensures |incoming| >= ReplySize ==> r == incoming[..ReplySize]
    ensures |incoming| < ReplySize ==> r == incoming + seq(ReplySize - |incoming|, _ => 0)
  {
    var f := ReadSome(incoming, ReplySize);
    if |incoming| >= ReplySize then f.buffer
    else
      assert f.buffer == f.buffer[..|incoming|] + f.buffer[|incoming|..];
      f.buffer
  }

  /**
   * Read: sends the query (the write's own status is dropped) and takes one
   * plain read of up to 9 waiting bytes as the reply. A read fault, or nothing
   * waiting (end of input), is passed on as is and clears the stored reply; a
   * wrong trailer is a mismatch carrying both values; otherwise PM2.5, PM10
   * and PM1.0 come from bytes 2..3, 4..5 and 6..7.
   */
  function Read(z: Sensor, port: Port): (r: Step)
    ensures port.writeFault.Pass? ==> r.port.written == port.written + [CommandQuery]
    ensures port.writeFault.Fail? ==> r.port.written == port.written
    ensures r.port.writeFault == port.writeFault && r.port.flushFault == port.flushFault
    ensures r.port.readFault == port.readFault
    ensures r.result != NoReading
    ensures port.readFault.Fail? ==>
              r.result == Failed(port.readFault.error) && r.sensor.data == [] && r.port.incoming == port.incoming
    ensures port.readFault.Pass? ==>
              r.port.incoming == if |port.incoming| >= ReplySize then port.incoming[ReplySize..] else []
    ensures port.readFault.Pass? ==> (r.result == Failed(EndOfInput) <==> |port.incoming| == 0)
    ensures port.readFault.Pass? && |port.incoming| == 0 ==> r.sensor.data == []
    ensures port.readFault.Pass? && |port.incoming| > 0 ==> r.sensor.data == Padded(port.incoming)
    ensures r.result.Got? <==>
              port.readFault.Pass? && |port.incoming| > 0 && HasValidTrailer(Padded(port.incoming))
    ensures port.readFault.Pass? && |port.incoming| > 0 && !HasValidTrailer(Padded(port.incoming)) ==>
              r.result == Failed(ChecksumMismatch(r.sensor.data[8], Checksum(r.sensor.data)))
    ensures r.result.Got? ==> r.result.reading.pm25 == ByteToInt(r.sensor.data[2..4])
    ensures r.result.Got? ==> r.result.reading.pm10 == ByteToInt(r.sensor.data[4..6])
    ensures r.result.Got? ==> r.result.reading.pm1 == ByteToInt(r.sensor.data[6..8])
  {
    var asked := Write(port, CommandQuery).port;
    if asked.readFault.Fail? then Step(Failed(asked.readFault.error), Sensor([]), asked)
    else
      match ReadSome(asked.incoming, ReplySize)
      case Exhausted => Step(Failed(EndOfInput), Sensor([]), asked)
      case Fetched(data, rest) =>
        var answered := Sensor(data);
        var after := asked.(incoming := rest);
        if !IsReadingValid(answered) then
          Step(Failed(ChecksumMismatch(GetChecksum(answered), CalculateChecksum(answered))), answered, after)
        else
          var reading := Reading(
            pm1 := ByteToInt(data[6..8]),
            pm25 := ByteToInt(data[2..4]),
            pm10 := ByteToInt(data[4..6]));
          Step(Got(reading), answered, after)
  }

  /**
   * The start byte of a reply is never checked: replacing it changes nothing
   * the caller sees, whether the reply is whole or zero-padded.
   */
  lemma StartByteIgnored(z: Sensor, port: Port, first: byte)
    requires |port.incoming| >= 1
    ensures Read(z, port).result == Read(z, port.(incoming := port.incoming[0 := first])).result
    ensures port.readFault.Pass? ==>
              Read(z, port).port == Read(z, port.(incoming := port.incoming[0 := first])).port
  {
    var data := Padded(port.incoming);
    var other := Padded(port.incoming[0 := first]);
    assert other == data[0 := first];
    if |port.incoming| >= ReplySize {
      assert port.incoming[0 := first][ReplySize..] == port.incoming[ReplySize..];
    }
    ChecksumIgnoresEnds(data, first, data[8]);
    assert other[|data| - 1 := data[8]] == other;
    assert other[2..4] == data[2..4] && other[4..6] == data[4..6] && other[6..8] == data[6..8];
  }

  // ---------------------------------------------------------------------------
  // The sample replies
  // ---------------------------------------------------------------------------

  /** A reply as the sensor sends it: PM2.5 0x85, PM10 0x96, PM1.0 0x65, trailer 0xFA. */
  const SampleReply: seq<byte> := [0xFF, 0x86, 0x00, 0x85, 0x00, 0x96, 0x00, 0x65, 0xFA]

  /** The same reply with the trailer off by one. */
  const SampleReplyBadChecksum: seq<byte> := [0xFF, 0x86, 0x00, 0x85, 0x00, 0x96, 0x00, 0x65, 0xFB]

  lemma SampleReplyChecksum()
    ensures Checksum(SampleReply) == 0xFA && Checksum(SampleReplyBadChecksum) == 0xFA
  {
    assert ChecksumBody(SampleReply) == [0x86, 0x00, 0x85, 0x00, 0x96, 0x00, 0x65];
    assert ChecksumBody(SampleReplyBadChecksum) == [0x86, 0x00, 0x85, 0x00, 0x96, 0x00, 0x65];
    SumOfBytes7(0x86, 0x00, 0x85, 0x00, 0x96, 0x00, 0x65);
  }

  /**
   * The sample decodes to 0x85 / 0x96 / 0x65 and its trailer is 0xFA; the
   * off-by-one trailer is a mismatch carrying 0xFB and 0xFA; nothing waiting
   * is the end-of-input error; a fault of the exchange is passed on as is.
   */
  lemma SampleReplies(z: Sensor, port: Port, e: Error)
    ensures IsReadingValid(Sensor(SampleReply)) && !IsReadingValid(Sensor(SampleReplyBadChecksum))
    ensures GetChecksum(Sensor(SampleReply)) == 0xFA
    ensures Read(z, port.(incoming := SampleReply, readFault := Pass)).result == Got(Reading(pm1 := 0x65, pm25 := 0x85, pm10 := 0x96))
    ensures Read(z, port.(incoming := SampleReplyBadChecksum, readFault := Pass)).result == Failed(ChecksumMismatch(0xFB, 0xFA))
    ensures Read(z, port.(incoming := [], readFault := Pass)).result == Failed(EndOfInput)
    ensures var r := Read(z, port.(readFault := Fail(e)));
            r.result == Failed(e) && r.sensor.data == [] && r.port.incoming == port.incoming
  {
    SampleReplyChecksum();
    assert SampleReply[..ReplySize] == SampleReply;
    assert SampleReplyBadChecksum[..ReplySize] == SampleReplyBadChecksum;
    assert SampleReply[2..4] == [0x00, 0x85];
    assert SampleReply[4..6] == [0x00, 0x96];
    assert SampleReply[6..8] == [0x00, 0x65];
  }

  /**
   * A reply cut one byte short is zero-padded: its trailer reads as 0x00, so
   * the exchange is a mismatch against the checksum 0xFA of the bytes that came.
   */
  lemma ShortReplyIsPadded(z: Sensor, port: Port)
    ensures Read(z, port.(incoming := SampleReply[..8], readFault := Pass)).result == Failed(ChecksumMismatch(0x00, 0xFA))
  {
    SampleReplyChecksum();
    var padded := Padded(SampleReply[..8]);
    assert padded == SampleReply[8 := 0x00];
    ChecksumIgnoresEnds(SampleReply, SampleReply[0], 0x00);
    assert SampleReply[0 := SampleReply[0]] == SampleReply;
  }
}
